=== FILE: README.md ===
# Lucky draw (Tết Bính Ngọ 2026): a verified model of the draw engine

The app runs a lucky-number draw for a New Year party. An organiser
configures:

- the largest number that can be drawn;
- the delay between the digits as they stop;
- a list of prize tiers, each with a count, the copies still to draw and a
  rank.

The draw screen then works through these steps:

1. It selects a tier.
2. It draws a zero-padded number that no earlier winner holds, retrying up
   to 100 times.
3. It stops the spinning digits one by one from the right.
4. It announces the winner with a congratulation text. That text comes
   either from an AI service or from seven built-in templates.

The app keeps the configuration and the winner history, newest first. An
admin panel edits the tiers and saves the settings.

The project models this core in Dafny:

| file | module | models |
|---|---|---|
| `lottery.dfy` | `Lottery` | the records (`Prize`, `Winner`, `LotteryConfig` with its message mode), random values as `Roll`, stock and history measures |
| `decimal.dfy` | `Decimal` | `toString`, `padStart` and the digit count of the largest number |
| `gemini_service.dfy` | `GeminiService` | the fallback templates and their substitution, the text-or-fallback choice, the first inline image of an image reply |
| `admin_panel.dfy` | `AdminPanel` | the panel's form and its add, update, remove, save and background operations |
| `draw_screen.dfy` | `DrawEngine` | the draw screen: the class `DrawScreen` with its effect, `startDraw`, the timers and `finishDraw` |
| `app.dfy` | `App` | the default configuration, the loader, and the session class `LotterySession` with `handleDraw` and `resetLottery`; one full draw end to end (`PlayDraw`) |

Randomness, clock values, ids, the user's confirmation and the outcomes of
the AI service calls are parameters:

- Each `Math.random()` value is a `Roll`, a real in [0, 1).
- A service call's outcome is a `Reply`: it threw, or it returned a value.
- The reveal timers are a list of `(time, index)` events plus a step method
  (`Settle`) that fires one of them.

## Model

| member | source | states |
|---|---|---|
| Lottery.ScaleRoll | components/DrawScreen.tsx:56 | `Math.floor(Math.random() * n)` is an index below `n` |
| Decimal.ToDecimal | components/DrawScreen.tsx:57 | the decimal text of a number is all digits, has no leading zero, and its length is exactly the number of decimal digits (`n < 10^len`, `10^(len-1) <= n`) |
| Decimal.Zeros | components/DrawScreen.tsx:25 | `"0".repeat(k)` has length `k` and every character `'0'` |
| Decimal.PadStart | components/DrawScreen.tsx:57 | `padStart(width, '0')` gives a text of length `max(len, width)` |
| Decimal.PadStartShape | components/DrawScreen.tsx:57 | the padded text ends with the original text, and every character in front of it is `'0'` |
| Decimal.DigitCount | components/DrawScreen.tsx:20 | the digit count is at least 1, `maxNumber < 10^d`, and `10^(d-1) <= maxNumber` when `d > 1` (the decimal length of `maxNumber`) |
| Decimal.ParseToDecimal | components/DrawScreen.tsx:57 | reading back the decimal text of `n` gives `n` |
| Decimal.ParseLeadingZeros | components/DrawScreen.tsx:57 | zeros put in front do not change a digit string's value |
| Decimal.PaddedDecimal | components/DrawScreen.tsx:56-57 | any `k <= maxNumber`, padded to the digit count of `maxNumber`, is exactly that wide, all digits, and reads back as `k` |
| GeminiService.TemplateIndex | services/geminiService.ts:19 | the random template index is a valid index into the seven messages |
| GeminiService.TemplatesWellFormed | services/geminiService.ts:5-13 | each of the seven messages is its template's text: plain text without `{` around one `{prize}` and one `{number}` |
| GeminiService.MarksOccurOnce | services/geminiService.ts:6-12 | in a well-formed template each placeholder occurs at exactly one position, the start of its own slot |
| GeminiService.FallbackPlaceholders | services/geminiService.ts:6-12 | every fallback message holds exactly one `{prize}` and exactly one `{number}` |
| GeminiService.ReplaceFirst | services/geminiService.ts:21-22 | `replace` with a string pattern never shortens the text by more than the pattern's length; `ReplaceFirstAt` and `ReplaceFirstAbsent` state its result |
| GeminiService.ReplaceFirstAbsent | services/geminiService.ts:21-22 | a text in which the pattern occurs nowhere comes back unchanged |
| GeminiService.ReplaceFirstAt | services/geminiService.ts:21-22 | `replace` with a string pattern that first occurs at `k` swaps exactly that occurrence and keeps the text around it |
| GeminiService.SubstituteTemplate | services/geminiService.ts:20-22 | replacing `{prize}` and then `{number}` fills each slot of a template with its own value, whichever slot comes first, when the prize name has no `{` |
| GeminiService.FallbackMessage | services/geminiService.ts:18-23 | the fallback message is never empty and, for a prize name without `{`, is the chosen template with both slots filled |
| GeminiService.FallbackNamesBoth | services/geminiService.ts:20-22 | for arguments without `{`, the message contains the prize name and the number literally and no placeholder is left |
| GeminiService.FilledTemplate | services/geminiService.ts:20-22 | a filled template holds both values at their slots and no `{` |
| GeminiService.WinnerHype | services/geminiService.ts:45-48 | the service's text when it is non-empty; on empty text or a thrown call, the fallback for the same arguments; never empty |
| GeminiService.FirstInlineIndex | services/geminiService.ts:74-78 | the first part carrying inline data, with no earlier part carrying any; none exactly when no part carries inline data |
| GeminiService.TetBackground | services/geminiService.ts:72-84 | a `data:<mime>;base64,<data>` URL of the first inline part; nothing when the call threw, there are no parts, or no part has inline data |
| GeminiService.ScanForImage | services/geminiService.ts:72-80 | the early-returning loop over the parts yields the same URL as `TetBackground` |
| AdminPanel.OpenForm | components/AdminPanel.tsx:12-15 | the form shows the configuration's maximum and tiers, and its delay is the configured one or 1000 when that is zero; the prompt field holds the stored prompt, or is empty when none is stored |
| AdminPanel.AddPrize | components/AdminPanel.tsx:18-27 | exactly one tier is appended (`count = remaining = 1`, rank = old length + 1, the default name, the given id); the earlier tiers are unchanged |
| AdminPanel.ApplyEdit | components/AdminPanel.tsx:32-33 | a count edit sets both `count` and `remaining`; a name or rank edit changes only that field and keeps `remaining`; the id is kept |
| AdminPanel.UpdatePrize | components/AdminPanel.tsx:29-38 | length, order and ids are kept; non-matching tiers are untouched; matching tiers get the edit |
| AdminPanel.RemovePrize | components/AdminPanel.tsx:40-42 | the result has no tier with the id; a tier is kept exactly when it is in the list and its id differs; the length falls by the number of tiers with that id |
| AdminPanel.SaveConfig | components/AdminPanel.tsx:44-47 | maximum, delay, tiers and prompt come from the form; background URL and message mode are kept |
| AdminPanel.IsTrimmed | components/AdminPanel.tsx:50 | the characters `trim` strips include space, tab and line breaks and never include ASCII letters or digits |
| AdminPanel.LeadingBlanks | components/AdminPanel.tsx:50 | the count `trim` strips from the front: all of those are white space, and the next character is not |
| AdminPanel.TrailingBlanks | components/AdminPanel.tsx:50 | the count `trim` strips from the back: all of those are white space, and the one before them is not |
| AdminPanel.Trim | components/AdminPanel.tsx:50 | `trim` gives the piece of the text after its leading white space, with only white space after it, and neither end of the result is white space |
| AdminPanel.IsBlank | components/AdminPanel.tsx:50 | `!s.trim()` holds exactly when every character is white space |
| AdminPanel.CreateBackground | components/AdminPanel.tsx:49-68 | a blank prompt (after `trim`) is refused before any call; no image means no change; an image URL is saved together with the form's settings; a non-blank prompt whose reply holds an image is always saved |
| AdminPanel.AddPrizeKeepsStock | components/AdminPanel.tsx:19-26 | adding keeps `remaining <= count` and `0 <= remaining <= count` for every tier and raises the total stock by one |
| AdminPanel.UpdatePrizeKeepsStock | components/AdminPanel.tsx:30-37 | every update keeps `remaining <= count` for every tier |
| AdminPanel.UpdateCountKeepsInStock | components/AdminPanel.tsx:32-33 | with a non-negative new count, an update keeps `0 <= remaining <= count` |
| AdminPanel.RemovePrizeKeepsStock | components/AdminPanel.tsx:41 | removal keeps both stock invariants |
| AdminPanel.RemovePrizeIdempotent | components/AdminPanel.tsx:41 | removing the same id again changes nothing |
| AdminPanel.RemovePrizeAppend | components/AdminPanel.tsx:41 | removal works piece by piece, so the kept tiers stay in their order |
| AdminPanel.SaveUnchangedForm | components/AdminPanel.tsx:44-45 | saving the form as opened gives back the configuration when its delay is non-zero and its prompt present |
| DrawEngine.Gap | components/DrawScreen.tsx:76 | the gap is never zero, and a non-zero configured delay is used as it is |
| DrawEngine.FindPrize | components/DrawScreen.tsx:42 | `find` by id: the first tier with the id; none exactly when no tier has it |
| DrawEngine.FirstInStock | components/DrawScreen.tsx:31 | `find` by stock: the first tier with `remaining > 0`; none exactly when no tier has stock |
| DrawEngine.AutoSelect | components/DrawScreen.tsx:30-33 | a present selection is kept; with no stock anywhere nothing changes; otherwise the first tier in list order with stock is selected |
| DrawEngine.AutoSelectSettles | components/DrawScreen.tsx:30-34 | running the selection again after it has run changes nothing |
| DrawEngine.Candidate | components/DrawScreen.tsx:56-57 | every try is the zero-padded decimal of an integer in `[0, maxNumber]`, exactly `digitCount` characters, all digits |
| DrawEngine.DrawWinningNumber | components/DrawScreen.tsx:52-62 | 1 to 100 tries; the kept number is the last try; every earlier try was already won; stopping before 100 tries means the kept number is not already won |
| DrawEngine.BuildSchedule | components/DrawScreen.tsx:75-90 | event `i` stops digit `digitCount-1-i` at `1500 + i*gap` |
| DrawEngine.ScheduleStopsEachDigitOnce | components/DrawScreen.tsx:78-82 | every digit is stopped by exactly one event |
| DrawEngine.ScheduleTimesIncrease | components/DrawScreen.tsx:75-89 | with a positive gap the times strictly increase, and the last event, which stops the leftmost digit, fires after every other |
| DrawEngine.FourDigitSchedule | components/DrawScreen.tsx:75-89 | four digits at 1000 ms stop at 1500, 2500, 3500 and 4500 ms, rightmost first |
| DrawEngine.DigitCountExample | components/DrawScreen.tsx:56-57 | 9999 gives four digits and a draw of 7 shows as "0007"; 100 gives three digits, 0 gives one; a zero delay means 1000 ms |
| DrawEngine.PendingMessage | components/DrawScreen.tsx:67-73 | in AI mode the message is the service's text or its fallback; in any other mode it is a template message; never empty |
| DrawEngine.DecrementPrize | components/DrawScreen.tsx:98-100 | length and order are kept; tiers with the id lose one copy and change nothing else; the others are untouched |
| DrawEngine.DecrementTotal | components/DrawScreen.tsx:98-100 | the total stock falls by the number of tiers carrying the id |
| DrawEngine.DrawTakesOne | components/DrawScreen.tsx:98-100 | with unique ids, every tier within stock and the selected tier in stock, exactly that tier loses one copy, no other tier changes, the total falls by exactly one and stock stays within bounds |
| DrawEngine.DrawKeepsLedger | components/DrawScreen.tsx:98-100 | for any list the draw can use: unique ids stay unique; with unique ids the total falls by exactly one, whatever the other tiers hold; a list with unique ids within stock stays within stock |
| DrawEngine.PlanDraw | components/DrawScreen.tsx:52-90 | the planned draw holds the tier, a number of the right width in range, drawn as in the retry loop (the first try nobody holds, or the last of the 100 tries when all are held), the mode's message and the schedule |
| DrawEngine.DrawScreen.IsAnySpinning | components/DrawScreen.tsx:21 | some digit spins exactly when a flag of the array is set |
| DrawEngine.DrawScreen.StartEnabled | components/DrawScreen.tsx:247 | the button's disabled test (a digit spins, or the selected tier's `remaining`, 0 when there is none, is at most 0) fails exactly when nothing spins and a tier is selected that exists and has stock |
| DrawEngine.EnabledStartPasses | components/DrawScreen.tsx:247 | an enabled start button passes both guards of `startDraw` unless the selected id is the empty text |
| DrawEngine.DrawScreen.constructor | components/DrawScreen.tsx:14-18 | the screen starts with no flags, no selection, an empty number, no message and no celebration |
| DrawEngine.DrawScreen.SyncIdle | components/DrawScreen.tsx:23-34 | a number of the wrong width becomes `digitCount` zeros with `digitCount` flags, none spinning; a number of the right width is kept; the selection becomes `AutoSelect`'s |
| DrawEngine.DrawScreen.SelectPrize | components/DrawScreen.tsx:205-206 | a tier button selects its tier, except while a digit spins |
| DrawEngine.DrawScreen.Dismiss | components/DrawScreen.tsx:122 | closing the celebration changes nothing else |
| DrawEngine.DrawScreen.StartDraw | components/DrawScreen.tsx:36-91 | no selection or a missing or sold-out tier is refused with nothing changed; otherwise every flag spins, the message is cleared and the drawn number shown, and the plan is as `PlanDraw` states |
| DrawEngine.DrawScreen.Settle | components/DrawScreen.tsx:79-88 | one event clears only its own flag and reports the finish exactly when it is the last event |
| DrawEngine.DrawScreen.RunReveal | components/DrawScreen.tsx:78-90 | after all events no flag spins, and the finish was reported once, by the last event |
| DrawEngine.DrawScreen.FinishDraw | components/DrawScreen.tsx:93-111 | the celebration shows the message; the prize list loses one copy of the drawn tier; the winner carries the number, the tier's name and the message |
| App.DefaultConfigSound | App.tsx:7-18 | the default tiers are full, have distinct ids and ranks 1, 2, 3 and hold 14 copies; 9999 gives four digits |
| App.FillDefaults | App.tsx:26-29 | a missing or empty prompt and a missing mode take the defaults; present ones and every other field are kept |
| App.FillingKeepsComplete | App.tsx:26-29 | a configuration that has both fields passes the loader unchanged |
| App.ResetPrizes | App.tsx:59 | every tier's `remaining` becomes its `count`; all its other fields, the length and the order are kept |
| App.ResetForgetsDraws | App.tsx:57-63 | resetting undoes a draw's decrement, resetting twice is resetting once, and non-negative counts give full stock |
| App.PrependKeepsDistinct | App.tsx:53 | putting a winner whose number nobody holds in front keeps the winning numbers distinct |
| App.LotterySession.Load | App.tsx:22-35 | with nothing stored the default configuration is loaded; a stored one is filled as `FillDefaults` states; the winners are the stored ones or none |
| App.LotterySession.UpdateConfig | App.tsx:48-50 | the new configuration replaces the old one; the winners are kept |
| App.LotterySession.HandleDraw | App.tsx:52-55 | the winner goes in front of the history, the earlier winners behind it in order; only the prize list of the configuration changes |
| App.LotterySession.ResetLottery | App.tsx:57-63 | when confirmed, every tier is refilled, the other fields are kept and the history is emptied; when declined, nothing changes |
| App.PlayDraw | components/DrawScreen.tsx:36-111 | a refused draw changes neither the session nor the screen; a full draw records in front the winner with the given id and timestamp, the drawn number, the selected tier's name and the mode's message, and the new prize list is exactly the old one with the selected tier decremented; unique ids stay unique and the total falls by exactly one, and a list within stock stays within stock; the number is drawn as the retry loop does, so the history stays repeat-free unless all 100 tries were numbers already won, in which case the last try is kept; the screen shows the recorded number and message with nothing spinning |

## Left out

- Audio (`services/audioService.ts`, `services/useAudio.ts`), the Electron start-up (`main.js`), the build configuration and the spinning-digit display (`components/DigitSlot.tsx`) are not part of this model. They are playback, window and presentation code.
- Persistence: `localStorage`, `JSON.parse` and `JSON.stringify`, and the page's background styling are not modelled. `LotterySession.Load` takes the stored configuration and winners as already-parsed optional values. A stored text that parses to `null` is not modelled.
- The AI service calls themselves are not modelled: the request, the prompt text, the model names, the API key and the network. Their outcomes are `Reply` parameters.
- Timers and `async`/`await` are not modelled as concurrency:
  - The reveal is a list of events fired in list order by `RunReveal`. With a positive gap, list order is time order (`ScheduleTimesIncrease`).
  - The awaited message is already resolved in the plan. In AI mode the source opens the celebration before the reply arrives. Closing it re-enables the start button before the app has recorded the draw, so a second draw could check the old history and overwrite the first draw's decrement. The results about stock and repeat-free numbers assume that each draw is recorded before the next one starts.
  - Each settle step clears one flag of the screen's array in place. The source instead copies the flag array at every step, so that array's new identity is not modelled.
- DrawEngine.DrawScreen.RunReveal: with a negative configured delay, the source's timers fire in reverse order, so the draw finishes before the other digits stop. The model fires events in list order and does not capture that ordering.
- Floating point is not modelled:
  - `maxNumber` is a natural number. Negative or fractional maxima, and `NaN` from bad input, are not modelled.
  - Numbers are exact integers written in plain decimal. From `1e21` upward, JavaScript's `toString` writes exponent notation (`"1e+21"`), so the source's numbers are then not all digits. Above `2^53`, `Math.floor(Math.random() * (maxNumber + 1))` cannot reach every integer.
  - `count`, `rank` and `digitDelay` are integers. The seconds-to-milliseconds conversion of the panel's delay field, and `rank` kept as the raw input text, are not modelled.
- Decimal.DigitCount: the decimal length is stated for exact integers only; for `maxNumber >= 1e21` the source's `toString().length` counts exponent notation instead.
- DrawEngine.Candidate: every integer in `[0, maxNumber]` is a possible try, and each try is all digits. The source keeps both only while `maxNumber` is below `2^53` and `1e21`.
- The random ids (`Math.random().toString(36)`) and `Date.now()` are parameters, and their format is not modelled. The same goes for the distributions of the random values.
- GeminiService.FallbackMessage: substitution is literal. JavaScript's `$&`, `$1` and similar replacement patterns are not interpreted. The result is stated as the filled template only for prize names without `{`. Other names are covered only by non-emptiness.
- GeminiService.FallbackNamesBoth: covers only prize names without `{`. A name that holds `{` but no placeholder also keeps both values in the message, but the model does not prove that.
- `alert` and `confirm` are not modelled as dialogs: `confirm` is the boolean `confirmed`, and an alert is the error value of a refused operation.
- A stored `messageMode` holding some other text is not modelled: the mode is `AI` or `PREDEFINED`. `Winner.message` is always present in the model, as the draw always sets it.
- The panel's editable copy (`AdminForm`) is a value. Its React state setters and the busy flag of the background request are not modelled.
- The start button is also disabled while any digit spins. That guard is part of the rendering, not of `startDraw`, and the model states it only as `DrawScreen.StartEnabled`.
- Auto-selection follows the code: it picks the first tier in list order with stock, not the tier with the lowest rank.

=== FILE: admin_panel.dfy ===
/** The configuration panel: the editable copy of the configuration, the
    prize-list edits (add, update, remove), saving, and the AI background
    request. Every edit builds a new list; nothing is updated in place. */
module AdminPanel {
  import opened Lottery
  import GeminiService

  /** The name a newly added tier starts with. */
  const NewPrizeName: string := "Giải thưởng mới"

  /** The panel's working copy of the settings. */
  datatype AdminForm = AdminForm(maxNum: nat, digitDelay: int, prizes: seq<Prize>, bgPrompt: string)

  /** The form as the panel opens it: a zero delay shows as one second, a
      missing prompt as empty text. */
  function OpenForm(config: LotteryConfig): (f: AdminForm)
    ensures f.maxNum == config.maxNumber && f.prizes == config.prizes
    ensures f.digitDelay != 0
    ensures config.digitDelay != 0 ==> f.digitDelay == config.digitDelay
    ensures config.digitDelay == 0 ==> f.digitDelay == 1000
    ensures f.bgPrompt == if config.backgroundPrompt.Some? then config.backgroundPrompt.value else ""
  {
    AdminForm(
      config.maxNumber,
      if config.digitDelay != 0 then config.digitDelay else 1000,
      config.prizes,
      match config.backgroundPrompt
      case Some(p) => p
      case None => "")
  }

  /** `handleAddPrize`: one new tier at the end, one copy in stock, ranked
      after the current list; the tiers already there are kept as they are. */
  function AddPrize(prizes: seq<Prize>, newId: string): (r: seq<Prize>)
    ensures |r| == |prizes| + 1 && r[..|prizes|] == prizes
    ensures r[|prizes|].id == newId && r[|prizes|].name == NewPrizeName
    ensures r[|prizes|].count == 1 && r[|prizes|].remaining == 1 && r[|prizes|].rank == |prizes| + 1
  {
    prizes + [Prize(newId, NewPrizeName, 1, 1, |prizes| + 1)]
  }

  /** The field a text box of the panel edits, with its new value. */
  datatype PrizeEdit = EditName(name: string) | EditCount(count: int) | EditRank(rank: int)

  /** One field of one tier changed; editing the count refills the stock to
      the new count, the other edits keep `remaining`. */
  function ApplyEdit(p: Prize, edit: PrizeEdit): (q: Prize)
    ensures q.id == p.id
    ensures edit.EditCount? ==> q.count == edit.count && q.remaining == edit.count
    ensures !edit.EditCount? ==> q.count == p.count && q.remaining == p.remaining
    ensures q.name == (if edit.EditName? then edit.name else p.name)
    ensures q.rank == (if edit.EditRank? then edit.rank else p.rank)
  {
    match edit
    case EditName(n) => p.(name := n)
    case EditCount(c) => p.(count := c, remaining := c)
    case EditRank(k) => p.(rank := k)
  }

  /** `handleUpdatePrize`: every tier carrying the id gets the edit; the
      others, the length and the order stay as they were. */
  function UpdatePrize(prizes: seq<Prize>, id: string, edit: PrizeEdit): (r: seq<Prize>)
    ensures |r| == |prizes|
    ensures forall i :: 0 <= i < |r| ==> r[i].id == prizes[i].id
    ensures forall i :: 0 <= i < |r| && prizes[i].id != id ==> r[i] == prizes[i]
    ensures forall i :: 0 <= i < |r| && prizes[i].id == id ==> r[i] == ApplyEdit(prizes[i], edit)
  {
    if prizes == [] then []
    else [if prizes[0].id == id then ApplyEdit(prizes[0], edit) else prizes[0]]
         + UpdatePrize(prizes[1..], id, edit)
  }

  /** `handleRemovePrize`: the list without the tiers carrying the id. */
  function RemovePrize(prizes: seq<Prize>, id: string): (r: seq<Prize>)
    ensures |r| == |prizes| - CountId(prizes, id)
    ensures forall i :: 0 <= i < |r| ==> r[i].id != id
    ensures forall p :: p in r <==> p in prizes && p.id != id
  {
    if prizes == [] then []
    else if prizes[0].id == id then RemovePrize(prizes[1..], id)
    else [prizes[0]] + RemovePrize(prizes[1..], id)
  }

  /** `handleSave`: the form's four settings replace those of the
      configuration; every other field (background URL, message mode) is
      kept. */
  function SaveConfig(config: LotteryConfig, form: AdminForm): (c: LotteryConfig)
    ensures c.maxNumber == form.maxNum && c.digitDelay == form.digitDelay
    ensures c.prizes == form.prizes && c.backgroundPrompt == Some(form.bgPrompt)
    ensures c.backgroundUrl == config.backgroundUrl && c.messageMode == config.messageMode
  {
    config.(maxNumber := form.maxNum, digitDelay := form.digitDelay,
            prizes := form.prizes, backgroundPrompt := Some(form.bgPrompt))
  }

  /** White space and line terminators as `String.prototype.trim` strips
      them: space, tab and line breaks are among them, letters and digits
      never are. */
  predicate IsTrimmed(c: char)
    ensures c == ' ' || c == '\t' || c == '\n' || c == '\r' ==> IsTrimmed(c)
    ensures ('0' <= c <= '9') || ('a' <= c <= 'z') || ('A' <= c <= 'Z') ==> !IsTrimmed(c)
  {
    var n := c as int;
    (0x09 <= n <= 0x0D) || n == 0x20 || n == 0xA0 || n == 0x1680 || (0x2000 <= n <= 0x200A)
    || n == 0x2028 || n == 0x2029 || n == 0x202F || n == 0x205F || n == 0x3000 || n == 0xFEFF
  }

  /** How many characters `trim` strips from the front. */
  function LeadingBlanks(s: string): (k: nat)
    ensures k <= |s|
    ensures forall i :: 0 <= i < k ==> IsTrimmed(s[i])
    ensures k < |s| ==> !IsTrimmed(s[k])
  {
    if s != [] && IsTrimmed(s[0]) then 1 + LeadingBlanks(s[1..]) else 0
  }

  /** How many characters `trim` strips from the back. */
  function TrailingBlanks(s: string): (k: nat)
    ensures k <= |s|
    ensures forall i :: |s| - k <= i < |s| ==> IsTrimmed(s[i])
    ensures k < |s| ==> !IsTrimmed(s[|s| - 1 - k])
  {
    if s != [] && IsTrimmed(s[|s| - 1]) then 1 + TrailingBlanks(s[..|s| - 1]) else 0
  }

  /** `s.trim()`: the piece of `s` that starts after its leading white
      space, with only white space after it in `s`, and neither starting
      nor ending with white space itself. */
  function Trim(s: string): (r: string)
    ensures r == [] || (!IsTrimmed(r[0]) && !IsTrimmed(r[|r| - 1]))
    ensures LeadingBlanks(s) + |r| <= |s| && s[LeadingBlanks(s)..LeadingBlanks(s) + |r|] == r
    ensures forall i :: LeadingBlanks(s) + |r| <= i < |s| ==> IsTrimmed(s[i])
  {
    var a := LeadingBlanks(s);
    var t := s[a..];
    var b := TrailingBlanks(t);
    var r := t[..|t| - b];
    assert s[a..a + |r|] == r;
    assert forall i :: a + |r| <= i < |s| ==> s[i] == t[i - a];
    r
  }

  /** `!s.trim()`: nothing is left once white space is stripped, which is
      the case exactly when every character is white space. */
  predicate IsBlank(s: string)
    ensures IsBlank(s) <==> forall i :: 0 <= i < |s| ==> IsTrimmed(s[i])
  {
    assert (forall i :: 0 <= i < |s| ==> IsTrimmed(s[i])) ==> LeadingBlanks(s) == |s|;
    Trim(s) == []
  }

  /** Why the background request changed nothing. */
  datatype BackgroundError = BlankPrompt | NoImage

  /** `handleCreateAIBackground` once the image call has settled: a blank
      prompt is refused before any call; otherwise a returned image becomes
      the background URL and the form's settings are saved with it. */
  function CreateBackground(config: LotteryConfig, form: AdminForm,
                            reply: GeminiService.Reply<Option<seq<GeminiService.Part>>>)
    : (r: Result<LotteryConfig, BackgroundError>)
    ensures IsBlank(form.bgPrompt) ==> r == Err(BlankPrompt)
    ensures !IsBlank(form.bgPrompt) && GeminiService.TetBackground(reply).None? ==> r == Err(NoImage)
    ensures !IsBlank(form.bgPrompt) && GeminiService.TetBackground(reply).Some? ==> r.Ok?
    ensures r.Ok? ==> GeminiService.TetBackground(reply).Some?
                      && r.value.backgroundUrl == GeminiService.TetBackground(reply)
                      && r.value == SaveConfig(config, form).(backgroundUrl := r.value.backgroundUrl)
  {
    if IsBlank(form.bgPrompt) then Err(BlankPrompt)
    else match GeminiService.TetBackground(reply)
      case None => Err(NoImage)
      case Some(url) => Ok(SaveConfig(config, form).(backgroundUrl := Some(url)))
  }

  // ----- properties of the edits -----

  /** Adding a tier keeps `remaining <= count`, and the full stock
      invariant, and raises the total stock by one. */
  lemma AddPrizeKeepsStock(prizes: seq<Prize>, newId: string)
    ensures RemainingWithinCount(prizes) ==> RemainingWithinCount(AddPrize(prizes, newId))
    ensures AllInStock(prizes) ==> AllInStock(AddPrize(prizes, newId))
    ensures TotalRemaining(AddPrize(prizes, newId)) == TotalRemaining(prizes) + 1
  {
    TotalRemainingAppend(prizes, [Prize(newId, NewPrizeName, 1, 1, |prizes| + 1)]);
  }

  /** Updating keeps `remaining <= count` for every tier. */
  lemma UpdatePrizeKeepsStock(prizes: seq<Prize>, id: string, edit: PrizeEdit)
    requires RemainingWithinCount(prizes)
    ensures RemainingWithinCount(UpdatePrize(prizes, id, edit))
  {
  }

  /** A count edit to a non-negative value keeps the full stock invariant. */
  lemma UpdateCountKeepsInStock(prizes: seq<Prize>, id: string, edit: PrizeEdit)
    requires AllInStock(prizes)
    requires edit.EditCount? ==> edit.count >= 0
    ensures AllInStock(UpdatePrize(prizes, id, edit))
  {
  }

  /** Removing keeps `remaining <= count`, and the full stock invariant. */
  lemma RemovePrizeKeepsStock(prizes: seq<Prize>, id: string)
    ensures RemainingWithinCount(prizes) ==> RemainingWithinCount(RemovePrize(prizes, id))
    ensures AllInStock(prizes) ==> AllInStock(RemovePrize(prizes, id))
  {
  }

  /** Removing the same id a second time changes nothing. */
  lemma {:induction false} RemovePrizeIdempotent(prizes: seq<Prize>, id: string)
    ensures RemovePrize(RemovePrize(prizes, id), id) == RemovePrize(prizes, id)
  {
    if prizes != [] {
      RemovePrizeIdempotent(prizes[1..], id);
    }
  }

  /** Removal works piece by piece, so the kept tiers stay in their order. */
  lemma {:induction false} RemovePrizeAppend(a: seq<Prize>, b: seq<Prize>, id: string)
    ensures RemovePrize(a + b, id) == RemovePrize(a, id) + RemovePrize(b, id)
  {
    if a != [] {
      assert (a + b)[1..] == a[1..] + b;
      RemovePrizeAppend(a[1..], b, id);
    } else {
      assert a + b == b;
    }
  }

  /** Saving what the panel opened with changes only what the panel shows
      differently: a zero delay and a missing prompt. */
  lemma SaveUnchangedForm(config: LotteryConfig)
    requires config.digitDelay != 0 && config.backgroundPrompt.Some?
    ensures SaveConfig(config, OpenForm(config)) == config
  {
  }
}

=== FILE: app.dfy ===
/** The application shell: the default configuration, loading a stored
    configuration and filling the fields older versions did not store, and
    the session ledger (configuration plus winner history) that the draw
    screen and the admin panel report to. */
module App {
  import opened Lottery
  import opened Decimal
  import DrawEngine
  import GeminiService

  const DefaultBackgroundUrl: string := "https://r.jina.ai/i/6f9472314f3b4d4f8260a92f808f978e"

  const DefaultBackgroundPrompt: string :=
    "A beautiful and high-quality artistic background for Lunar New Year 2026 Year of the Horse "
    + "(Bính Ngọ) in Vietnam. Include a majestic horse, traditional Bánh Tét, blooming Yellow "
    + "Apricot (Mai) and Pink Cherry Blossoms (Đào). In the background, subtly integrate a "
    + "beautiful and peaceful Catholic Church architecture. The style should be festive, warm, "
    + "with red and gold color palettes, rich in Vietnamese cultural heritage. Cinematic "
    + "lighting, 4k resolution, panoramic view."

  /** The configuration of a first start: numbers up to 9999, one second
      between digits, three tiers with full stock, template messages. */
  const DefaultConfig: LotteryConfig := LotteryConfig(
    9999,
    1000,
    [ Prize("1", "Giải Đặc Biệt", 1, 1, 1),
      Prize("2", "Giải Nhất", 3, 3, 2),
      Prize("3", "Giải Khuyến Khích", 10, 10, 3) ],
    Some(DefaultBackgroundUrl),
    Some(DefaultBackgroundPrompt),
    Some(PREDEFINED))

  /** The default tiers are full, distinct, ranked 1, 2, 3 in list order and
      hold fourteen copies; the numbers have four digits. */
  lemma DefaultConfigSound()
    ensures UniqueIds(DefaultConfig.prizes) && AllInStock(DefaultConfig.prizes)
    ensures forall i :: 0 <= i < |DefaultConfig.prizes| ==>
              DefaultConfig.prizes[i].remaining == DefaultConfig.prizes[i].count
              && DefaultConfig.prizes[i].rank == i + 1
    ensures TotalRemaining(DefaultConfig.prizes) == 14
    ensures DigitCount(DefaultConfig.maxNumber) == 4
  {
  }

  /** A prompt and a message mode are present, as JavaScript tests them
      (an empty prompt counts as missing). */
  predicate Complete(c: LotteryConfig)
  {
    c.backgroundPrompt.Some? && c.backgroundPrompt.value != "" && c.messageMode.Some?
  }

  /** `config` is `parsed` with its missing prompt and mode taken from the
      defaults: complete, equal to `parsed` in every other field, and
      keeping a prompt or a mode that `parsed` already had. */
  predicate FilledFrom(config: LotteryConfig, parsed: LotteryConfig)
  {
    && Complete(config)
    && config.(backgroundPrompt := parsed.backgroundPrompt, messageMode := parsed.messageMode) == parsed
    && (parsed.backgroundPrompt.Some? && parsed.backgroundPrompt.value != "" ==>
          config.backgroundPrompt == parsed.backgroundPrompt)
    && (parsed.backgroundPrompt.None? || parsed.backgroundPrompt.value == "" ==>
          config.backgroundPrompt == DefaultConfig.backgroundPrompt)
    && (parsed.messageMode.Some? ==> config.messageMode == parsed.messageMode)
    && (parsed.messageMode.None? ==> config.messageMode == DefaultConfig.messageMode)
  }

  /** A complete configuration is the only filling of itself, so the
      defaults pass the loader unchanged. */
  lemma FillingKeepsComplete(parsed: LotteryConfig, config: LotteryConfig)
    requires Complete(parsed) && FilledFrom(config, parsed)
    ensures config == parsed
  {
  }

  /** The loader's patch of a stored configuration, field by field. */
  method FillDefaults(parsed: LotteryConfig) returns (config: LotteryConfig)
    ensures FilledFrom(config, parsed)
  {
    config := parsed;
    if config.backgroundPrompt.None? || config.backgroundPrompt.value == "" {
      config := config.(backgroundPrompt := DefaultConfig.backgroundPrompt);
    }
    if config.messageMode.None? {
      config := config.(messageMode := DefaultConfig.messageMode);
    }
  }

  /** The `map` of `resetLottery`: every tier back to its full count, its
      other fields and the order kept. */
  function ResetPrizes(prizes: seq<Prize>): (r: seq<Prize>)
    ensures |r| == |prizes|
    ensures forall i :: 0 <= i < |r| ==>
              r[i].remaining == r[i].count && r[i].(remaining := prizes[i].remaining) == prizes[i]
  {
    if prizes == [] then [] else [prizes[0].(remaining := prizes[0].count)] + ResetPrizes(prizes[1..])
  }

  /** Resetting forgets every draw: it undoes a draw's decrement, resetting
      twice is resetting once, and tiers with non-negative counts come back
      within stock. */
  lemma ResetForgetsDraws(prizes: seq<Prize>, id: string)
    ensures ResetPrizes(DrawEngine.DecrementPrize(prizes, id)) == ResetPrizes(prizes)
    ensures ResetPrizes(ResetPrizes(prizes)) == ResetPrizes(prizes)
    ensures (forall i :: 0 <= i < |prizes| ==> prizes[i].count >= 0) ==> AllInStock(ResetPrizes(prizes))
  {
  }

  /** Recording a number nobody holds keeps the history free of repeats. */
  lemma PrependKeepsDistinct(w: Winner, winners: seq<Winner>)
    requires DistinctNumbers(winners) && !NumberTaken(winners, w.number)
    ensures DistinctNumbers([w] + winners)
  {
  }

  /** The app's lasting state: the configuration and the winners, newest first. */
  class LotterySession {
    var config: LotteryConfig
    var winners: seq<Winner>

    /** Start-up: the stored configuration, or the default one when nothing
        is stored, with missing fields filled; the stored winners, or none. */
    constructor Load(savedConfig: Option<LotteryConfig>, savedWinners: Option<seq<Winner>>)
      ensures FilledFrom(config, if savedConfig.Some? then savedConfig.value else DefaultConfig)
      ensures savedConfig.None? ==> config == DefaultConfig
      ensures winners == if savedWinners.Some? then savedWinners.value else []
    {
      var parsed := if savedConfig.Some? then savedConfig.value else DefaultConfig;
      var filled := FillDefaults(parsed);
      config := filled;
      winners := if savedWinners.Some? then savedWinners.value else [];
    }

    /** `handleUpdateConfig`: the panel's configuration replaces the current one. */
    method UpdateConfig(newConfig: LotteryConfig)
      modifies this
      ensures config == newConfig && winners == old(winners)
    {
      config := newConfig;
    }

    /** `handleDraw`: the winner goes in front of the history and the
        updated tiers replace the prize list; nothing else changes. */
    method HandleDraw(winner: Winner, updatedPrizes: seq<Prize>)
      modifies this
      ensures winners == [winner] + old(winners)
      ensures config == old(config).(prizes := updatedPrizes)
    {
      winners := [winner] + winners;
      config := config.(prizes := updatedPrizes);
    }

    /** `resetLottery`: once confirmed, every tier is refilled and the
        history is cleared; declined, nothing changes. */
    method ResetLottery(confirmed: bool)
      modifies this
      ensures confirmed ==> config == old(config).(prizes := ResetPrizes(old(config).prizes)) && winners == []
      ensures !confirmed ==> config == old(config) && winners == old(winners)
    {
      if confirmed {
        config := config.(prizes := ResetPrizes(config.prizes));
        winners := [];
      }
    }
  }

  /** One full draw as the app runs it: the screen starts on the session's
      configuration, every timer fires, the screen finishes and the session
      records the win. A refused start leaves the session and the screen
      alone. A draw takes one copy from the selected tier; from a list with
      unique ids within stock it keeps the stock within bounds and the ids
      unique, and it repeats no winning number unless all
      of its tries were numbers already won. */
  method PlayDraw(session: LotterySession, screen: DrawEngine.DrawScreen, rolls: seq<Roll>,
                  messageRoll: Roll, reply: GeminiService.Reply<string>, winnerId: string, timestamp: int)
    returns (r: Result<Winner, DrawEngine.DrawError>)
    requires |rolls| >= DrawEngine.MaxAttempts
    modifies session, screen
    ensures r.Err? ==> session.config == old(session.config) && session.winners == old(session.winners)
    ensures r.Err? ==> unchanged(screen) && unchanged(screen.spinning)
    ensures r.Err? <==> !(DrawEngine.HasSelection(old(screen.selectedPrizeId))
                          && DrawEngine.CanDraw(old(session.config.prizes), old(screen.selectedPrizeId).value))
    ensures r.Ok? ==>
      && Some(r.value.prizeName) == (match DrawEngine.FindPrize(old(session.config.prizes), old(screen.selectedPrizeId).value)
                                      case Some(k) => Some(old(session.config.prizes)[k].name)
                                      case None => None)
      && session.winners == [r.value] + old(session.winners)
      && r.value == Winner(winnerId, r.value.number, r.value.prizeName, timestamp,
                           DrawEngine.PendingMessage(old(session.config.messageMode), r.value.prizeName,
                                                     r.value.number, reply, messageRoll))
      && session.config == old(session.config).(prizes := DrawEngine.DecrementPrize(
                                                   old(session.config.prizes), old(screen.selectedPrizeId).value))
      && (UniqueIds(old(session.config.prizes)) ==> UniqueIds(session.config.prizes))
      && (UniqueIds(old(session.config.prizes)) ==>
            TotalRemaining(session.config.prizes) == TotalRemaining(old(session.config.prizes)) - 1)
      && (UniqueIds(old(session.config.prizes)) && AllInStock(old(session.config.prizes)) ==>
            AllInStock(session.config.prizes))
      && |r.value.number| == DigitCount(old(session.config.maxNumber))
      && AllDigits(r.value.number) && ParseDecimal(r.value.number) <= old(session.config.maxNumber)
      && DrawEngine.IsDrawOf(old(session.config.maxNumber), old(session.winners), rolls, r.value.number)
      && (DistinctNumbers(old(session.winners)) && !NumberTaken(old(session.winners), r.value.number) ==>
            DistinctNumbers(session.winners))
      && !screen.IsAnySpinning() && screen.showCelebration && screen.winningMessage == Some(r.value.message)
      && screen.currentNumber == r.value.number
  {
    var config := session.config;
    var winners := session.winners;
    var started := screen.StartDraw(config, winners, rolls, messageRoll, reply);
    if started.Err? {
      assert started.error.NoSelection? || started.error.SoldOut?;
      assert started.error.NoSelection? ==> started == Err(DrawEngine.NoSelection);
      return Err(started.error);
    }
    var plan := started.value;
    assert DrawEngine.IsPlan(plan, config, winners, rolls, messageRoll, reply);
    var finishes := screen.RunReveal(plan);
    var winner, updatedPrizes := screen.FinishDraw(plan, winnerId, timestamp);
    DrawEngine.DrawKeepsLedger(config.prizes, plan.prize.id);
    session.HandleDraw(winner, updatedPrizes);
    if DistinctNumbers(winners) && !NumberTaken(winners, winner.number) {
      PrependKeepsDistinct(winner, winners);
    }
    r := Ok(winner);
  }
}

=== FILE: decimal.dfy ===
/** Decimal text of non-negative integers, as the draw uses it:
    `n.toString()`, its length and `padStart(width, '0')`. */
module Decimal {

  predicate IsDigit(c: char)
  {
    '0' <= c <= '9'
  }

  predicate AllDigits(s: string)
  {
    forall i :: 0 <= i < |s| ==> IsDigit(s[i])
  }

  function DigitChar(d: nat): (c: char)
    requires d < 10
  {
    ('0' as int + d) as char
  }

  function DigitValue(c: char): nat
    requires IsDigit(c)
  {
    c as int - '0' as int
  }

  function Pow10(k: nat): (p: nat)
    ensures p >= 1
  {
    if k == 0 then 1 else 10 * Pow10(k - 1)
  }

  /** `n.toString()`: the shortest decimal text of `n`. It has exactly as many
      characters as `n` has decimal digits, and no leading zero. */
  function ToDecimal(n: nat): (s: string)
    ensures 1 <= |s| && AllDigits(s)
    ensures n < Pow10(|s|)
    ensures |s| > 1 ==> Pow10(|s| - 1) <= n && s[0] != '0'
    decreases n
  {
    if n < 10 then [DigitChar(n)] else ToDecimal(n / 10) + [DigitChar(n % 10)]
  }

  /** The value of a digit string, most significant digit first. */
  function ParseDecimal(s: string): nat
    requires AllDigits(s)
  {
    if s == [] then 0 else ParseDecimal(s[..|s| - 1]) * 10 + DigitValue(s[|s| - 1])
  }

  /** `"0".repeat(k)`. */
  function Zeros(k: nat): (z: string)
    ensures |z| == k && AllDigits(z)
    ensures forall i :: 0 <= i < k ==> z[i] == '0'
  {
    seq(k, _ => '0')
  }

  /** `s.padStart(width, '0')`: zeros in front up to `width` characters; a
      text already that long is returned as it is. */
  function PadStart(s: string, width: nat): (r: string)
    ensures |r| == if |s| >= width then |s| else width
  {
    if |s| >= width then s else Zeros(width - |s|) + s
  }

  /** The padded text ends with the original text, and everything in front
      of it is `'0'`. */
  lemma PadStartShape(s: string, width: nat)
    ensures PadStart(s, width)[|PadStart(s, width)| - |s|..] == s
    ensures forall i :: 0 <= i < |PadStart(s, width)| - |s| ==> PadStart(s, width)[i] == '0'
  {
  }

  /** `maxNumber.toString().length`: the number of decimal digits of
      `maxNumber`, which is the width of every drawn number. */
  function DigitCount(maxNumber: nat): (d: nat)
    ensures d >= 1 && maxNumber < Pow10(d)
    ensures d > 1 ==> Pow10(d - 1) <= maxNumber
  {
    |ToDecimal(maxNumber)|
  }

  /** Reading back the text of `n` gives `n`. */
  lemma {:induction false} ParseToDecimal(n: nat)
    ensures ParseDecimal(ToDecimal(n)) == n
    decreases n
  {
    var s := ToDecimal(n);
    if n >= 10 {
      ParseToDecimal(n / 10);
      assert s[..|s| - 1] == ToDecimal(n / 10);
    }
  }

  /** Leading zeros do not change the value of a digit string. */
  lemma {:induction false} ParseLeadingZeros(k: nat, s: string)
    requires AllDigits(s)
    ensures AllDigits(Zeros(k) + s)
    ensures ParseDecimal(Zeros(k) + s) == ParseDecimal(s)
    decreases |s|
  {
    var t := Zeros(k) + s;
    if s == [] {
      assert t == Zeros(k);
      ParseZeros(k);
    } else {
      ParseLeadingZeros(k, s[..|s| - 1]);
      assert t[..|t| - 1] == Zeros(k) + s[..|s| - 1];
    }
  }

  lemma {:induction false} ParseZeros(k: nat)
    ensures ParseDecimal(Zeros(k)) == 0
  {
    if k > 0 {
      ParseZeros(k - 1);
      assert Zeros(k)[..k - 1] == Zeros(k - 1);
    }
  }

  /** A larger number never has a shorter decimal text. */
  lemma {:induction false} DecimalLengthMonotone(a: nat, b: nat)
    requires a <= b
    ensures |ToDecimal(a)| <= |ToDecimal(b)|
    decreases b
  {
    if a >= 10 {
      DecimalLengthMonotone(a / 10, b / 10);
    }
  }

  /** A number no larger than `maxNumber`, zero-padded to the digit count of
      `maxNumber`, is exactly that wide, all digits, and reads back as itself. */
  lemma PaddedDecimal(k: nat, maxNumber: nat)
    requires k <= maxNumber
    ensures |PadStart(ToDecimal(k), DigitCount(maxNumber))| == DigitCount(maxNumber)
    ensures AllDigits(PadStart(ToDecimal(k), DigitCount(maxNumber)))
    ensures ParseDecimal(PadStart(ToDecimal(k), DigitCount(maxNumber))) == k
  {
    var s := ToDecimal(k);
    DecimalLengthMonotone(k, maxNumber);
    ParseToDecimal(k);
    if |s| < DigitCount(maxNumber) {
      ParseLeadingZeros(DigitCount(maxNumber) - |s|, s);
    }
  }
}

=== FILE: draw_screen.dfy ===
/** The draw screen: choosing the tier, drawing a number that no earlier
    winner holds, stopping its digits one after the other, and recording the
    win. The screen's state is a class whose methods are its event handlers;
    the values they compute are specified by the functions beside it. */
module DrawEngine {
  import opened Lottery
  import opened Decimal
  import GeminiService

  /** How many numbers a draw tries before it keeps the last one anyway. */
  const MaxAttempts: nat := 100

  /** Milliseconds before the first digit stops. */
  const InitialDelay: int := 1500

  /** The gap between two digits when the configured delay is zero. */
  const DefaultGap: int := 1000

  /** `config.digitDelay || 1000`: the configured delay, zero read as unset. */
  function Gap(digitDelay: int): (g: int)
    ensures g != 0
    ensures digitDelay != 0 ==> g == digitDelay
  {
    if digitDelay == 0 then DefaultGap else digitDelay
  }

  // ----- choosing the tier -----

  /** A selected id as JavaScript tests it: present and not the empty text. */
  predicate HasSelection(sel: Option<string>)
  {
    sel.Some? && sel.value != ""
  }

  /** `prizes.find(p => p.id === id)`, as the position of the first match. */
  function FindPrize(prizes: seq<Prize>, id: string): (r: Option<nat>)
    ensures r.None? <==> forall k :: 0 <= k < |prizes| ==> prizes[k].id != id
    ensures r.Some? ==> r.value < |prizes| && prizes[r.value].id == id
                        && forall k :: 0 <= k < r.value ==> prizes[k].id != id
  {
    if prizes == [] then None
    else if prizes[0].id == id then Some(0)
    else match FindPrize(prizes[1..], id)
      case None => None
      case Some(k) => Some(k + 1)
  }

  /** `prizes.find(p => p.remaining > 0)`, as the position of the first match. */
  function FirstInStock(prizes: seq<Prize>): (r: Option<nat>)
    ensures r.None? <==> forall k :: 0 <= k < |prizes| ==> prizes[k].remaining <= 0
    ensures r.Some? ==> r.value < |prizes| && prizes[r.value].remaining > 0
                        && forall k :: 0 <= k < r.value ==> prizes[k].remaining <= 0
  {
    if prizes == [] then None
    else if prizes[0].remaining > 0 then Some(0)
    else match FirstInStock(prizes[1..])
      case None => None
      case Some(k) => Some(k + 1)
  }

  /** The selection half of the screen's effect: with nothing selected, the
      first tier in list order that still has stock is selected; a present
      selection, or a list without stock, leaves the selection alone. */
  function AutoSelect(prizes: seq<Prize>, sel: Option<string>): (r: Option<string>)
    ensures HasSelection(sel) ==> r == sel
    ensures (forall k :: 0 <= k < |prizes| ==> prizes[k].remaining <= 0) ==> r == sel
    ensures !HasSelection(sel) && (exists k :: 0 <= k < |prizes| && prizes[k].remaining > 0) ==>
              exists k :: 0 <= k < |prizes| && prizes[k].remaining > 0 && r == Some(prizes[k].id)
                          && forall j :: 0 <= j < k ==> prizes[j].remaining <= 0
  {
    if |prizes| > 0 && !HasSelection(sel) then
      match FirstInStock(prizes)
      case Some(k) => Some(prizes[k].id)
      case None => sel
    else sel
  }

  /** Running the effect again once it has run selects nothing new. */
  lemma AutoSelectSettles(prizes: seq<Prize>, sel: Option<string>)
    ensures AutoSelect(prizes, AutoSelect(prizes, sel)) == AutoSelect(prizes, sel)
  {
  }

  /** The guard of `startDraw` past the empty selection: the selected tier
      exists and still has stock. */
  predicate CanDraw(prizes: seq<Prize>, id: string)
  {
    match FindPrize(prizes, id)
    case Some(k) => prizes[k].remaining > 0
    case None => false
  }

  // ----- drawing the number -----

  /** One try of the draw: `Math.floor(Math.random() * (maxNumber + 1))`,
      zero-padded to the digit count of `maxNumber`. */
  function Candidate(maxNumber: nat, roll: Roll): (s: string)
    ensures |s| == DigitCount(maxNumber) && AllDigits(s)
    ensures ParseDecimal(s) == ScaleRoll(roll, maxNumber + 1) && ParseDecimal(s) <= maxNumber
  {
    var k := ScaleRoll(roll, maxNumber + 1);
    PaddedDecimal(k, maxNumber);
    PadStart(ToDecimal(k), DigitCount(maxNumber))
  }

  /** The retry loop of `startDraw`. The draw at attempt `k` uses `rolls[k]`;
      the loop stops at the first number no winner holds, and after
      `MaxAttempts` tries keeps the last number even if it is taken. */
  method DrawWinningNumber(maxNumber: nat, winners: seq<Winner>, rolls: seq<Roll>)
    returns (winningNum: string, attempts: nat)
    requires |rolls| >= MaxAttempts
    ensures 1 <= attempts <= MaxAttempts
    ensures winningNum == Candidate(maxNumber, rolls[attempts - 1])
    ensures forall k :: 0 <= k < attempts - 1 ==> NumberTaken(winners, Candidate(maxNumber, rolls[k]))
    ensures attempts < MaxAttempts ==> !NumberTaken(winners, winningNum)
  {
    winningNum := "";
    var isUnique := false;
    attempts := 0;
    while !isUnique && attempts < MaxAttempts
      invariant 0 <= attempts <= MaxAttempts
      invariant attempts == 0 ==> !isUnique
      invariant attempts > 0 ==> winningNum == Candidate(maxNumber, rolls[attempts - 1])
      invariant isUnique <==> attempts > 0 && !NumberTaken(winners, winningNum)
      invariant forall k :: 0 <= k < attempts - 1 ==> NumberTaken(winners, Candidate(maxNumber, rolls[k]))
    {
      winningNum := Candidate(maxNumber, rolls[attempts]);
      if !NumberTaken(winners, winningNum) {
        isUnique := true;
      }
      attempts := attempts + 1;
    }
  }

  // ----- the reveal schedule -----

  /** One timer of the reveal: at `time` milliseconds the digit at position
      `index` (0 is the leftmost) stops. */
  datatype RevealEvent = RevealEvent(time: int, index: nat)

  /** Event `i` stops the digit `i` places from the right. */
  predicate SettlesAll(events: seq<RevealEvent>, d: nat)
  {
    |events| == d && forall i :: 0 <= i < d ==> events[i].index == d - 1 - i
  }

  /** The full schedule: the events also fire `gap` apart after the initial delay. */
  predicate IsSchedule(events: seq<RevealEvent>, d: nat, gap: int)
  {
    SettlesAll(events, d) && forall i :: 0 <= i < d ==> events[i].time == InitialDelay + i * gap
  }

  /** The timer loop of `startDraw`, one event per digit. */
  method BuildSchedule(digitCount: nat, digitDelay: int) returns (events: seq<RevealEvent>)
    ensures IsSchedule(events, digitCount, Gap(digitDelay))
  {
    var gap := Gap(digitDelay);
    events := [];
    for i := 0 to digitCount
      invariant |events| == i
      invariant forall j :: 0 <= j < i ==> events[j] == RevealEvent(InitialDelay + j * gap, digitCount - 1 - j)
    {
      events := events + [RevealEvent(InitialDelay + i * gap, digitCount - 1 - i)];
    }
  }

  /** Every digit is stopped by exactly one event. */
  lemma ScheduleStopsEachDigitOnce(events: seq<RevealEvent>, d: nat, j: nat)
    requires SettlesAll(events, d) && j < d
    ensures exists i :: 0 <= i < d && events[i].index == j
    ensures forall i, k :: 0 <= i < d && 0 <= k < d && events[i].index == j && events[k].index == j ==> i == k
  {
    assert events[d - 1 - j].index == j;
  }

  /** With a positive gap the events fire in list order, so the last one,
      which stops the leftmost digit, fires after every other. */
  lemma ScheduleTimesIncrease(events: seq<RevealEvent>, d: nat, gap: int, i: nat, k: nat)
    requires IsSchedule(events, d, gap) && gap > 0 && i < k < d
    ensures events[i].time < events[k].time
    ensures events[d - 1].index == 0 && events[i].time < events[d - 1].time
  {
  }

  /** Four digits with a one-second delay stop at 1.5 s, 2.5 s, 3.5 s and
      4.5 s, from the rightmost digit to the leftmost. */
  lemma FourDigitSchedule(events: seq<RevealEvent>)
    requires IsSchedule(events, 4, Gap(1000))
    ensures events == [RevealEvent(1500, 3), RevealEvent(2500, 2), RevealEvent(3500, 1), RevealEvent(4500, 0)]
  {
  }

  /** A maximum of 9999 gives four-digit numbers, so a draw of 7 shows as
      "0007", and the zero delay falls back to one second. */
  lemma DigitCountExample()
    ensures DigitCount(9999) == 4 && DigitCount(100) == 3 && DigitCount(0) == 1
    ensures Candidate(9999, 0.0007) == "0007"
    ensures Gap(0) == 1000
  {
  }

  // ----- the message and the win -----

  /** The message a draw shows: the AI's text in AI mode (itself falling back
      to a template), a template otherwise. */
  function PendingMessage(mode: Option<MessageMode>, prizeName: string, number: string,
                          reply: GeminiService.Reply<string>, roll: Roll): (m: string)
    ensures m != []
    ensures mode == Some(AI) ==> m == GeminiService.WinnerHype(prizeName, number, reply, roll)
    ensures mode != Some(AI) ==> m == GeminiService.FallbackMessage(prizeName, number, roll)
  {
    if mode == Some(AI) then GeminiService.WinnerHype(prizeName, number, reply, roll)
    else GeminiService.FallbackMessage(prizeName, number, roll)
  }

  /** The `map` of `finishDraw`: one copy fewer of every tier carrying the
      id; every other field and every other tier is kept. */
  function DecrementPrize(prizes: seq<Prize>, id: string): (r: seq<Prize>)
    ensures |r| == |prizes|
    ensures forall i :: 0 <= i < |r| && prizes[i].id != id ==> r[i] == prizes[i]
    ensures forall i :: 0 <= i < |r| && prizes[i].id == id ==>
              r[i] == prizes[i].(remaining := prizes[i].remaining - 1)
  {
    if prizes == [] then []
    else [if prizes[0].id == id then prizes[0].(remaining := prizes[0].remaining - 1) else prizes[0]]
         + DecrementPrize(prizes[1..], id)
  }

  /** The total stock falls by the number of tiers carrying the id. */
  lemma {:induction false} DecrementTotal(prizes: seq<Prize>, id: string)
    ensures TotalRemaining(DecrementPrize(prizes, id)) == TotalRemaining(prizes) - CountId(prizes, id)
  {
    if prizes != [] {
      DecrementTotal(prizes[1..], id);
      assert DecrementPrize(prizes, id)[1..] == DecrementPrize(prizes[1..], id);
    }
  }

  /** Drawing from a tier that has stock, in a list with unique ids, takes
      exactly one copy from that tier, touches no other tier and keeps every
      tier's stock within bounds. */
  lemma DrawTakesOne(prizes: seq<Prize>, id: string)
    requires UniqueIds(prizes) && AllInStock(prizes) && CanDraw(prizes, id)
    ensures TotalRemaining(DecrementPrize(prizes, id)) == TotalRemaining(prizes) - 1
    ensures AllInStock(DecrementPrize(prizes, id))
    ensures var k := FindPrize(prizes, id).value;
            DecrementPrize(prizes, id)[k].remaining == prizes[k].remaining - 1
            && forall j :: 0 <= j < |prizes| && j != k ==> DecrementPrize(prizes, id)[j] == prizes[j]
  {
    var k := FindPrize(prizes, id).value;
    var r := DecrementPrize(prizes, id);
    UniqueIdCount(prizes, k);
    DecrementTotal(prizes, id);
    forall j | 0 <= j < |prizes| && j != k
      ensures r[j] == prizes[j]
    {
      if j < k {
        assert prizes[j].id != prizes[k].id;
      } else {
        assert prizes[k].id != prizes[j].id;
      }
    }
    assert r[k] == prizes[k].(remaining := prizes[k].remaining - 1);
  }

  /** A draw keeps the ids of the tiers, so unique ids stay unique; from a
      list with unique ids it takes exactly one copy, whatever the other
      tiers hold, and from such a list within stock it keeps the stock
      within bounds. */
  lemma DrawKeepsLedger(prizes: seq<Prize>, id: string)
    requires CanDraw(prizes, id)
    ensures UniqueIds(prizes) ==> UniqueIds(DecrementPrize(prizes, id))
    ensures UniqueIds(prizes) ==> TotalRemaining(DecrementPrize(prizes, id)) == TotalRemaining(prizes) - 1
    ensures UniqueIds(prizes) && AllInStock(prizes) ==> AllInStock(DecrementPrize(prizes, id))
  {
    if UniqueIds(prizes) {
      UniqueIdCount(prizes, FindPrize(prizes, id).value);
      DecrementTotal(prizes, id);
    }
    if UniqueIds(prizes) && AllInStock(prizes) {
      DrawTakesOne(prizes, id);
    }
  }

  /** What a started draw carries to its timers: the prize list it started
      from, the tier, the number, the message and the timer schedule. */
  datatype DrawPlan = DrawPlan(prizes: seq<Prize>, prize: Prize, number: string,
                               message: string, schedule: seq<RevealEvent>)

  /** Why `startDraw` refused to start. */
  datatype DrawError = NoSelection | SoldOut

  /** The number a draw keeps: the first of the tries that no winner holds,
      or the last try when all of them are held. */
  predicate IsDrawOf(maxNumber: nat, winners: seq<Winner>, rolls: seq<Roll>, number: string)
    requires |rolls| >= MaxAttempts
  {
    && (exists k :: 0 <= k < MaxAttempts && number == Candidate(maxNumber, rolls[k])
          && forall j :: 0 <= j < k ==> NumberTaken(winners, Candidate(maxNumber, rolls[j])))
    && (NumberTaken(winners, number) ==>
          number == Candidate(maxNumber, rolls[MaxAttempts - 1])
          && forall j :: 0 <= j < MaxAttempts ==> NumberTaken(winners, Candidate(maxNumber, rolls[j])))
  }

  /** Everything a started draw has settled: the tier found by its id with
      stock left, a number of the right width within range that no winner
      holds unless every try was held, the message of the configured mode,
      and the reveal schedule. */
  predicate IsPlan(plan: DrawPlan, config: LotteryConfig, winners: seq<Winner>, rolls: seq<Roll>,
                   messageRoll: Roll, reply: GeminiService.Reply<string>)
    requires |rolls| >= MaxAttempts
  {
    var d := DigitCount(config.maxNumber);
    && plan.prizes == config.prizes
    && FindPrize(config.prizes, plan.prize.id).Some?
    && plan.prize == config.prizes[FindPrize(config.prizes, plan.prize.id).value]
    && plan.prize.remaining > 0
    && |plan.number| == d && AllDigits(plan.number) && ParseDecimal(plan.number) <= config.maxNumber
    && IsDrawOf(config.maxNumber, winners, rolls, plan.number)
    && plan.message == PendingMessage(config.messageMode, plan.prize.name, plan.number, reply, messageRoll)
    && IsSchedule(plan.schedule, d, Gap(config.digitDelay))
  }

  /** The part of `startDraw` past its guards that computes rather than sets
      state: the number, the message and the timers for the tier at `k`. */
  method PlanDraw(config: LotteryConfig, winners: seq<Winner>, rolls: seq<Roll>,
                  messageRoll: Roll, reply: GeminiService.Reply<string>, k: nat)
    returns (plan: DrawPlan)
    requires |rolls| >= MaxAttempts
    requires k < |config.prizes| && FindPrize(config.prizes, config.prizes[k].id) == Some(k)
    requires config.prizes[k].remaining > 0
    ensures plan.prize == config.prizes[k]
    ensures IsPlan(plan, config, winners, rolls, messageRoll, reply)
  {
    var prize := config.prizes[k];
    var winningNum, attempts := DrawWinningNumber(config.maxNumber, winners, rolls);
    assert 0 <= attempts - 1 < MaxAttempts && winningNum == Candidate(config.maxNumber, rolls[attempts - 1]);
    assert NumberTaken(winners, winningNum) ==> attempts == MaxAttempts;
    var message := PendingMessage(config.messageMode, prize.name, winningNum, reply, messageRoll);
    var schedule := BuildSchedule(DigitCount(config.maxNumber), config.digitDelay);
    plan := DrawPlan(config.prizes, prize, winningNum, message, schedule);
  }

  /** An enabled start button leads past both guards of `startDraw`,
      unless the selected tier's id is the empty text, which the button
      accepts and `startDraw` reads as no selection. */
  lemma EnabledStartPasses(screen: DrawScreen, prizes: seq<Prize>)
    requires screen.StartEnabled(prizes) && screen.selectedPrizeId != Some("")
    ensures HasSelection(screen.selectedPrizeId) && CanDraw(prizes, screen.selectedPrizeId.value)
  {
  }

  /** The draw screen's state. */
  class DrawScreen {
    /** One flag per digit: still spinning. */
    var spinning: array<bool>
    var selectedPrizeId: Option<string>
    var currentNumber: string
    var winningMessage: Option<string>
    var showCelebration: bool

    constructor ()
      ensures spinning.Length == 0 && selectedPrizeId == None && currentNumber == ""
      ensures winningMessage == None && !showCelebration
    {
      spinning := new bool[0];
      selectedPrizeId := None;
      currentNumber := "";
      winningMessage := None;
      showCelebration := false;
    }

    /** `isAnySpinning`. */
    predicate IsAnySpinning()
      reads this, spinning
      ensures IsAnySpinning() <==> true in spinning[..]
    {
      exists i :: 0 <= i < spinning.Length && spinning[i]
    }

    /** The start button is enabled: nothing spins and the selected tier is
      found with stock left. */
    predicate StartEnabled(prizes: seq<Prize>)
      reads this, spinning
      ensures StartEnabled(prizes) <==>
                !IsAnySpinning() && selectedPrizeId.Some? && CanDraw(prizes, selectedPrizeId.value)
    {
      var remaining :=
        if selectedPrizeId.None? then 0
        else match FindPrize(prizes, selectedPrizeId.value)
          case Some(k) => prizes[k].remaining
          case None => 0;
      !(IsAnySpinning() || remaining <= 0)
    }

    /** The screen's effect: a number of the wrong width is reset to zeros
        with every digit at rest; then an empty selection is filled by
        `AutoSelect`. */
    method SyncIdle(config: LotteryConfig)
      modifies this
      ensures var d := DigitCount(config.maxNumber);
        if old(|currentNumber|) != d then
          currentNumber == Zeros(d) && fresh(spinning) && spinning.Length == d && !IsAnySpinning()
        else
          currentNumber == old(currentNumber) && spinning == old(spinning)
      ensures selectedPrizeId == AutoSelect(config.prizes, old(selectedPrizeId))
      ensures winningMessage == old(winningMessage) && showCelebration == old(showCelebration)
    {
      var d := DigitCount(config.maxNumber);
      if |currentNumber| != d {
        currentNumber := Zeros(d);
        spinning := new bool[d](_ => false);
      }
      if |config.prizes| > 0 && !HasSelection(selectedPrizeId) {
        var first := FirstInStock(config.prizes);
        if first.Some? {
          selectedPrizeId := Some(config.prizes[first.value].id);
        }
      }
    }

    /** A tier button: ignored while a draw spins. */
    method SelectPrize(id: string)
      modifies this
      ensures old(IsAnySpinning()) ==> selectedPrizeId == old(selectedPrizeId)
      ensures !old(IsAnySpinning()) ==> selectedPrizeId == Some(id)
      ensures spinning == old(spinning) && currentNumber == old(currentNumber)
      ensures winningMessage == old(winningMessage) && showCelebration == old(showCelebration)
    {
      if !IsAnySpinning() {
        selectedPrizeId := Some(id);
      }
    }

    /** Closing the celebration. */
    method Dismiss()
      modifies this
      ensures !showCelebration
      ensures spinning == old(spinning) && selectedPrizeId == old(selectedPrizeId)
      ensures currentNumber == old(currentNumber) && winningMessage == old(winningMessage)
    {
      showCelebration := false;
    }

    /** `startDraw` up to the timers: it refuses without a selection or when
        the selected tier is missing or sold out, changing nothing; otherwise
        every digit spins, the number is drawn, the message is chosen and
        the timers are planned. `rolls` are the draws' random values,
        `messageRoll` the template choice and `reply` the AI call's outcome. */
    method StartDraw(config: LotteryConfig, winners: seq<Winner>, rolls: seq<Roll>,
                     messageRoll: Roll, reply: GeminiService.Reply<string>)
      returns (r: Result<DrawPlan, DrawError>)
      requires |rolls| >= MaxAttempts
      modifies this
      ensures r == Err(NoSelection) <==> !HasSelection(old(selectedPrizeId))
      ensures r == Err(SoldOut) <==>
                HasSelection(old(selectedPrizeId)) && !CanDraw(config.prizes, old(selectedPrizeId).value)
      ensures r.Err? ==> unchanged(this)
      ensures r.Ok? ==>
        && old(selectedPrizeId) == Some(r.value.prize.id)
        && IsPlan(r.value, config, winners, rolls, messageRoll, reply)
        && fresh(spinning) && spinning.Length == DigitCount(config.maxNumber)
        && (forall i :: 0 <= i < spinning.Length ==> spinning[i])
        && currentNumber == r.value.number && winningMessage == None && !showCelebration
        && selectedPrizeId == old(selectedPrizeId)
    {
      if !HasSelection(selectedPrizeId) {
        return Err(NoSelection);
      }
      var found := FindPrize(config.prizes, selectedPrizeId.value);
      if found.None? || config.prizes[found.value].remaining <= 0 {
        return Err(SoldOut);
      }
      var d := DigitCount(config.maxNumber);
      winningMessage := None;
      showCelebration := false;
      spinning := new bool[d](_ => true);
      var plan := PlanDraw(config, winners, rolls, messageRoll, reply, found.value);
      currentNumber := plan.number;
      r := Ok(plan);
    }

    /** One timer firing: its digit stops, the others keep their state, and
        the timer of the last event reports that the draw is to finish. */
    method Settle(plan: DrawPlan, i: nat) returns (finish: bool)
      requires i < |plan.schedule| && plan.schedule[i].index < spinning.Length
      modifies spinning
      ensures !spinning[plan.schedule[i].index]
      ensures forall j :: 0 <= j < spinning.Length && j != plan.schedule[i].index ==> spinning[j] == old(spinning[j])
      ensures finish <==> i == |plan.schedule| - 1
    {
      spinning[plan.schedule[i].index] := false;
      finish := i == |plan.schedule| - 1;
    }

    /** All timers firing in list order: afterwards no digit spins, and the
        draw is finished exactly once, by the last timer. */
    method RunReveal(plan: DrawPlan) returns (finishes: seq<nat>)
      requires SettlesAll(plan.schedule, spinning.Length)
      modifies spinning
      ensures !IsAnySpinning()
      ensures finishes == if spinning.Length == 0 then [] else [spinning.Length - 1]
    {
      var n := spinning.Length;
      finishes := [];
      var i := 0;
      while i < n
        invariant 0 <= i <= n
        invariant forall j :: n - i <= j < n ==> !spinning[j]
        invariant finishes == if i == n && n > 0 then [n - 1] else []
      {
        var finish := Settle(plan, i);
        if finish {
          finishes := finishes + [i];
        }
        i := i + 1;
      }
    }

    /** `finishDraw`: the celebration shows the message, the tier loses one
        copy in the list the draw started from, and the win is recorded with
        the tier's name, the number and the message. `winnerId` and
        `timestamp` stand for the random id and the clock. */
    method FinishDraw(plan: DrawPlan, winnerId: string, timestamp: int)
      returns (winner: Winner, updatedPrizes: seq<Prize>)
      modifies this
      ensures showCelebration && winningMessage == Some(plan.message)
      ensures spinning == old(spinning) && currentNumber == old(currentNumber)
      ensures selectedPrizeId == old(selectedPrizeId)
      ensures updatedPrizes == DecrementPrize(plan.prizes, plan.prize.id)
      ensures winner == Winner(winnerId, plan.number, plan.prize.name, timestamp, plan.message)
    {
      showCelebration := true;
      winningMessage := Some(plan.message);
      updatedPrizes := DecrementPrize(plan.prizes, plan.prize.id);
      winner := Winner(winnerId, plan.number, plan.prize.name, timestamp, plan.message);
    }
  }
}

=== FILE: gemini_service.dfy ===
/** The message provider: the seven fallback congratulation templates, their
    placeholder substitution, the choice between service text and fallback,
    and the pick of the first inline image of an image-generation reply.
    The calls to the external service are not modelled: their outcome is a
    `Reply` the caller supplies. */
module GeminiService {
  import opened Lottery

  /** What an external call produced: it threw, or it returned a value. */
  datatype Reply<+T> = Threw | Replied(value: T)

  /** The two placeholders a template holds. */
  datatype Slot = PrizeSlot | NumberSlot

  /** A fallback message: plain text around one placeholder of each kind. */
  datatype Template = Template(lead: string, first: Slot, middle: string, second: Slot, tail: string)

  const PrizeMark: string := "{prize}"
  const NumberMark: string := "{number}"

  function Mark(s: Slot): string
  {
    match s
    case PrizeSlot => PrizeMark
    case NumberSlot => NumberMark
  }

  /** The text of a template, placeholders included. */
  function Text(t: Template): string
  {
    t.lead + Mark(t.first) + t.middle + Mark(t.second) + t.tail
  }

  predicate NoBrace(s: string)
  {
    forall i :: 0 <= i < |s| ==> s[i] != '{'
  }

  /** The plain parts of a template hold no `{`, and the two slots differ. */
  predicate WellFormed(t: Template)
  {
    NoBrace(t.lead) && NoBrace(t.middle) && NoBrace(t.tail) && t.tail != [] && t.first != t.second
  }

  /** The fallback templates in their order in the source. Long texts are
      written as joins of short literals so that each can be checked
      character by character. */
  const Templates: seq<Template> := [Greeting0, Greeting1, Greeting2, Greeting3, Greeting4, Greeting5, Greeting6]

  const Greeting0: Template :=
    Template("Chúc mừng bạn trúng ", PrizeSlot, "! Con số ", NumberSlot,
      " khai xuân đại cát, năm mới " + "Bính Ngọ mã đáo thành công, " + "vạn sự như ý!")
  const Greeting1: Template :=
    Template("Lộc xuân gõ cửa! ", PrizeSlot, " đã thuộc về số ", NumberSlot,
      ". Chúc tân xuân Bính Ngọ tài " + "lộc đầy nhà, gia đạo bình an!")
  const Greeting2: Template :=
    Template("Vạn sự hanh thông với con số ", NumberSlot, "! Chúc mừng chủ nhân giải ", PrizeSlot,
      " một năm mới phát tài phát " + "lộc!")
  const Greeting3: Template :=
    Template("Con số ", NumberSlot, " mang lời chúc đại thắng! " + "Chúc mừng bạn nhận giải ", PrizeSlot,
      ", năm mới sức khỏe dồi dào, " + "vạn sự như ý!")
  const Greeting4: Template :=
    Template("Mã đáo thành công cùng giải ", PrizeSlot, "! Con số ", NumberSlot,
      " chính là khởi đầu cho một " + "năm 2026 rực rỡ và thành đạt!")
  const Greeting5: Template :=
    Template("Tân niên vạn phúc! Giải ", PrizeSlot, " gọi tên số ", NumberSlot,
      ". Chúc bạn năm mới tiền tùng " + "như nước, sự nghiệp thăng hoa!")
  const Greeting6: Template :=
    Template("Con số may mắn ", NumberSlot, " đã mang về giải ", PrizeSlot,
      "! Chúc bạn và gia đình năm " + "mới an khang, thịnh vượng, " + "vạn thọ vô cương!")

  /** `FALLBACK_MESSAGES`: the template texts. */
  const FallbackMessages: seq<string> := [
    Text(Templates[0]), Text(Templates[1]), Text(Templates[2]), Text(Templates[3]),
    Text(Templates[4]), Text(Templates[5]), Text(Templates[6])
  ]

  /** `s` holds `pat` starting at index `k`. */
  predicate OccursAt(s: string, pat: string, k: nat)
  {
    k + |pat| <= |s| && s[k..k + |pat|] == pat
  }

  /** `s.replace(pat, rep)` with a string pattern: the first occurrence of
      `pat`, if any, is replaced by `rep`, which is taken literally. */
  function ReplaceFirst(s: string, pat: string, rep: string): (r: string)
    ensures |r| + |pat| >= |s|
    decreases |s|
  {
    if |pat| <= |s| && s[..|pat|] == pat then rep + s[|pat|..]
    else if s == [] then s
    else [s[0]] + ReplaceFirst(s[1..], pat, rep)
  }

  /** `Math.floor(Math.random() * FALLBACK_MESSAGES.length)`. */
  function TemplateIndex(roll: Roll): (i: nat)
    ensures i < |FallbackMessages| && i < 7
  {
    ScaleRoll(roll, |FallbackMessages|)
  }

  /** What a template reads like with both placeholders filled in. */
  function Fill(t: Template, prizeName: string, winningNumber: string): string
  {
    t.lead + SlotValue(t.first, prizeName, winningNumber) + t.middle
      + SlotValue(t.second, prizeName, winningNumber) + t.tail
  }

  function SlotValue(s: Slot, prizeName: string, winningNumber: string): string
  {
    match s
    case PrizeSlot => prizeName
    case NumberSlot => winningNumber
  }

  /** `getRandomFallbackMessage`: the chosen template with its first
      `{prize}` replaced by the prize name and then the first `{number}` of
      that text replaced by the number. It is never empty, and when the prize
      name holds no `{` it is exactly the template with both slots filled. */
  function FallbackMessage(prizeName: string, winningNumber: string, roll: Roll): (m: string)
    ensures m != []
    ensures NoBrace(prizeName) ==> m == Fill(Templates[TemplateIndex(roll)], prizeName, winningNumber)
  {
    var i := TemplateIndex(roll);
    TemplatesWellFormed(i);
    var t := Templates[i];
    assert FallbackMessages[i] == Text(t);
    var m := ReplaceFirst(ReplaceFirst(Text(t), PrizeMark, prizeName), NumberMark, winningNumber);
    assert NoBrace(prizeName) ==> m == Fill(t, prizeName, winningNumber) by {
      if NoBrace(prizeName) {
        SubstituteTemplate(t, prizeName, winningNumber);
      }
    }
    m
  }

  /** `generateWinnerHype` once the service call has settled: the service's
      text when it is non-empty, otherwise (empty text, or the call threw) a
      fallback message for the same prize and number. It never fails and
      never yields an empty message. */
  function WinnerHype(prizeName: string, winningNumber: string, reply: Reply<string>, roll: Roll): (m: string)
    ensures m != []
    ensures reply.Replied? && reply.value != [] ==> m == reply.value
    ensures reply.Threw? || reply.value == [] ==> m == FallbackMessage(prizeName, winningNumber, roll)
  {
    match reply
    case Replied(text) => if text != [] then text else FallbackMessage(prizeName, winningNumber, roll)
    case Threw => FallbackMessage(prizeName, winningNumber, roll)
  }

  /** Inline binary data of an image-generation reply part. */
  datatype InlineData = InlineData(mimeType: string, data: string)

  /** One part of a reply; parts without inline data carry text only. */
  datatype Part = Part(inlineData: Option<InlineData>)

  /** The `data:` URL of an inline image. */
  function DataUrl(d: InlineData): string
  {
    "data:" + d.mimeType + ";base64," + d.data
  }

  /** The position of the first part that carries inline data, if any. */
  function FirstInlineIndex(parts: seq<Part>): (r: Option<nat>)
    ensures r.None? <==> forall k :: 0 <= k < |parts| ==> parts[k].inlineData.None?
    ensures r.Some? ==> r.value < |parts| && parts[r.value].inlineData.Some?
    ensures r.Some? ==> forall j :: 0 <= j < r.value ==> parts[j].inlineData.None?
  {
    if parts == [] then None
    else if parts[0].inlineData.Some? then Some(0)
    else match FirstInlineIndex(parts[1..])
      case None => None
      case Some(k) => Some(k + 1)
  }

  /** `generateTetBackground` once the service call has settled: the
      `data:` URL of the first part with inline data; nothing when the call
      threw, when the reply has no parts, or when no part has inline data. */
  function TetBackground(reply: Reply<Option<seq<Part>>>): (url: Option<string>)
    ensures url.Some? <==> reply.Replied? && reply.value.Some? && FirstInlineIndex(reply.value.value).Some?
    ensures url.Some? ==> url.value == DataUrl(reply.value.value[FirstInlineIndex(reply.value.value).value].inlineData.value)
  {
    match reply
    case Threw => None
    case Replied(None) => None
    case Replied(Some(parts)) =>
      match FirstInlineIndex(parts)
      case None => None
      case Some(k) => Some(DataUrl(parts[k].inlineData.value))
  }

  /** The scan of `generateTetBackground` as the source writes it: a loop
      over the parts that returns at the first one with inline data. */
  method ScanForImage(reply: Reply<Option<seq<Part>>>) returns (url: Option<string>)
    ensures url == TetBackground(reply)
  {
    if reply.Threw? || reply.value.None? {
      return None;
    }
    var parts := reply.value.value;
    var i := 0;
    while i < |parts|
      invariant 0 <= i <= |parts|
      invariant forall j :: 0 <= j < i ==> parts[j].inlineData.None?
    {
      if parts[i].inlineData.Some? {
        assert FirstInlineIndex(parts) == Some(i) by {
          FirstInlineUnique(parts, i);
        }
        return Some(DataUrl(parts[i].inlineData.value));
      }
      i := i + 1;
    }
    return None;
  }

  /** The first part with inline data is the one every earlier part lacks it before. */
  lemma FirstInlineUnique(parts: seq<Part>, i: nat)
    requires i < |parts| && parts[i].inlineData.Some?
    requires forall j :: 0 <= j < i ==> parts[j].inlineData.None?
    ensures FirstInlineIndex(parts) == Some(i)
  {
  }

  // ----- proofs -----

  /** Every one of the seven templates is well formed. */
  lemma TemplatesWellFormed(i: nat)
    requires i < |Templates|
    ensures WellFormed(Templates[i]) && FallbackMessages[i] == Text(Templates[i])
  {
    if i == 0 { Greeting0WellFormed(); }
    else if i == 1 { Greeting1WellFormed(); }
    else if i == 2 { Greeting2WellFormed(); }
    else if i == 3 { Greeting3WellFormed(); }
    else if i == 4 { Greeting4WellFormed(); }
    else if i == 5 { Greeting5WellFormed(); }
    else { Greeting6WellFormed(); }
  }

  // One lemma per template keeps each character-by-character check small.
  lemma Greeting0WellFormed() ensures WellFormed(Greeting0) {}
  lemma Greeting1WellFormed() ensures WellFormed(Greeting1) {}
  lemma Greeting2WellFormed() ensures WellFormed(Greeting2) {}
  lemma Greeting3WellFormed() ensures WellFormed(Greeting3) {}
  lemma Greeting4WellFormed() ensures WellFormed(Greeting4) {}
  lemma Greeting5WellFormed() ensures WellFormed(Greeting5) {}
  lemma Greeting6WellFormed() ensures WellFormed(Greeting6) {}

  /** Replacing the first occurrence: when `pat` occurs at `k` and nowhere
      before, the result is the text with that occurrence swapped for `rep`. */
  lemma {:induction false} ReplaceFirstAt(s: string, pat: string, rep: string, k: nat)
    requires OccursAt(s, pat, k)
    requires forall j :: 0 <= j < k ==> !OccursAt(s, pat, j)
    ensures ReplaceFirst(s, pat, rep) == s[..k] + rep + s[k + |pat|..]
    decreases k
  {
    if k > 0 {
      assert !OccursAt(s, pat, 0);
      var t := s[1..];
      forall j | 0 <= j < k - 1
        ensures !OccursAt(t, pat, j)
      {
        assert !OccursAt(s, pat, j + 1);
        if j + |pat| <= |t| {
          assert t[j..j + |pat|] == s[j + 1..j + 1 + |pat|];
        }
      }
      assert t[k - 1..k - 1 + |pat|] == s[k..k + |pat|];
      ReplaceFirstAt(t, pat, rep, k - 1);
      assert s[..k] == [s[0]] + t[..k - 1];
      assert s[k + |pat|..] == t[k - 1 + |pat|..];
    }
  }

  /** A text in which the pattern occurs nowhere comes back unchanged. */
  lemma {:induction false} ReplaceFirstAbsent(s: string, pat: string, rep: string)
    requires forall k: nat :: !OccursAt(s, pat, k)
    ensures ReplaceFirst(s, pat, rep) == s
    decreases |s|
  {
    assert !OccursAt(s, pat, 0);
    if s != [] {
      var t := s[1..];
      forall k: nat
        ensures !OccursAt(t, pat, k)
      {
        assert !OccursAt(s, pat, k + 1);
        if k + |pat| <= |t| {
          assert t[k..k + |pat|] == s[k + 1..k + 1 + |pat|];
        }
      }
      ReplaceFirstAbsent(t, pat, rep);
      assert s == [s[0]] + t;
    }
  }

  /** Replacing in `x + pat + y` when `pat` does not occur inside `x`
      (possibly overlapping into `pat`) swaps exactly that `pat`. */
  lemma ReplaceAfter(x: string, pat: string, y: string, rep: string)
    requires forall j :: 0 <= j < |x| ==> !OccursAt(x + pat + y, pat, j)
    ensures ReplaceFirst(x + pat + y, pat, rep) == x + rep + y
  {
    var s := x + pat + y;
    assert s[|x|..|x| + |pat|] == pat;
    ReplaceFirstAt(s, pat, rep, |x|);
    assert s[..|x|] == x;
    assert s[|x| + |pat|..] == y;
  }

  /** A pattern opening with `{` occurs nowhere before `k` when every `{`
      before `k` is followed by a character other than the pattern's second. */
  lemma NoEarlierMark(s: string, pat: string, k: nat)
    requires |pat| >= 2 && pat[0] == '{' && k <= |s|
    requires forall j :: 0 <= j < k && s[j] == '{' ==> j + 1 < |s| && s[j + 1] != pat[1]
    ensures forall j :: 0 <= j < k ==> !OccursAt(s, pat, j)
  {
    forall j | 0 <= j < k
      ensures !OccursAt(s, pat, j)
    {
      if j + |pat| <= |s| {
        assert s[j..j + |pat|][0] == s[j] && s[j..j + |pat|][1] == s[j + 1];
      }
    }
  }

  /** Text without `{` in front of a mark hides no earlier mark. */
  lemma PlainPrefix(x: string, pat: string, y: string)
    requires NoBrace(x) && |pat| >= 2 && pat[0] == '{'
    ensures forall j :: 0 <= j < |x| ==> !OccursAt(x + pat + y, pat, j)
  {
  }

  /** Substituting the two placeholders of a well-formed template, in the
      order the source does, fills each slot with its own value, provided the
      prize name does not itself bring in a `{`. */
  lemma SubstituteTemplate(t: Template, prizeName: string, winningNumber: string)
    requires WellFormed(t) && NoBrace(prizeName)
    ensures ReplaceFirst(ReplaceFirst(Text(t), PrizeMark, prizeName), NumberMark, winningNumber)
            == Fill(t, prizeName, winningNumber)
  {
    if t.first == PrizeSlot {
      // {prize} comes right after the lead ...
      assert Text(t) == t.lead + PrizeMark + (t.middle + NumberMark + t.tail);
      PlainPrefix(t.lead, PrizeMark, t.middle + NumberMark + t.tail);
      ReplaceAfter(t.lead, PrizeMark, t.middle + NumberMark + t.tail, prizeName);
      // ... and the template's own {number} is the first one after the prize name.
      var head := t.lead + prizeName + t.middle;
      assert t.lead + prizeName + (t.middle + NumberMark + t.tail) == head + NumberMark + t.tail;
      assert NoBrace(head);
      PlainPrefix(head, NumberMark, t.tail);
      ReplaceAfter(head, NumberMark, t.tail, winningNumber);
    } else {
      // {number} comes first, so the first {prize} follows the middle text ...
      var head := t.lead + NumberMark + t.middle;
      assert Text(t) == head + PrizeMark + t.tail;
      NumberMarkFirst(t);
      ReplaceAfter(head, PrizeMark, t.tail, prizeName);
      // ... and {number} still sits right after the lead.
      assert head + prizeName + t.tail == t.lead + NumberMark + (t.middle + prizeName + t.tail);
      PlainPrefix(t.lead, NumberMark, t.middle + prizeName + t.tail);
      ReplaceAfter(t.lead, NumberMark, t.middle + prizeName + t.tail, winningNumber);
    }
  }

  /** In a template whose `{number}` comes first, no `{prize}` starts before
      the second slot. */
  lemma NumberMarkFirst(t: Template)
    requires WellFormed(t) && t.first == NumberSlot
    ensures forall j :: 0 <= j < |t.lead + NumberMark + t.middle| ==>
              !OccursAt(t.lead + NumberMark + t.middle + PrizeMark + t.tail, PrizeMark, j)
  {
    var s := t.lead + NumberMark + t.middle + PrizeMark + t.tail;
    var a, k := |t.lead|, |t.lead + NumberMark + t.middle|;
    forall j | 0 <= j < k && j != a
      ensures s[j] != '{'
    {
      if j < a {
        assert s[j] == t.lead[j];
      } else if j < a + 8 {
        assert s[j] == NumberMark[j - a];
      } else {
        assert s[j] == t.middle[j - a - 8];
      }
    }
    assert s[a + 1] == 'n';
    NoEarlierMark(s, PrizeMark, k);
  }

  /** Where a slot's placeholder starts in the template text. */
  function SlotStart(t: Template, slot: Slot): nat
  {
    if t.first == slot then |t.lead| else |t.lead| + |Mark(t.first)| + |t.middle|
  }

  /** The only `{` of a well-formed template text open its two placeholders. */
  lemma BracePositions(t: Template)
    requires WellFormed(t)
    ensures forall j :: 0 <= j < |Text(t)| && j != SlotStart(t, t.first) && j != SlotStart(t, t.second)
              ==> Text(t)[j] != '{'
  {
  }

  /** Each placeholder occurs in a well-formed template exactly once: at the
      start of its own slot and nowhere else. */
  lemma MarksOccurOnce(t: Template, slot: Slot)
    requires WellFormed(t)
    ensures forall k :: OccursAt(Text(t), Mark(slot), k) <==> k == SlotStart(t, slot)
  {
    var s, a, m1 := Text(t), |t.lead|, Mark(t.first);
    var b := a + |m1| + |t.middle|;
    BracePositions(t);
    assert s == t.lead + m1 + t.middle + Mark(t.second) + t.tail;
    assert s[a..a + |m1|] == m1;
    assert s[b..b + |Mark(t.second)|] == Mark(t.second);
    forall k: nat | OccursAt(s, Mark(slot), k)
      ensures k == SlotStart(t, slot)
    {
      assert s[k..k + |Mark(slot)|][0] == s[k] && s[k..k + |Mark(slot)|][1] == s[k + 1];
      assert s[k + 1] == Mark(slot)[1];
      if k == a {
        assert s[a + 1] == m1[1];
      } else {
        assert s[b + 1] == Mark(t.second)[1];
      }
    }
  }

  /** Every one of the seven fallback texts holds exactly one `{prize}` and
      exactly one `{number}`. */
  lemma FallbackPlaceholders(i: nat)
    requires i < |FallbackMessages|
    ensures forall k :: OccursAt(FallbackMessages[i], PrizeMark, k) <==> k == SlotStart(Templates[i], PrizeSlot)
    ensures forall k :: OccursAt(FallbackMessages[i], NumberMark, k) <==> k == SlotStart(Templates[i], NumberSlot)
  {
    TemplatesWellFormed(i);
    MarksOccurOnce(Templates[i], PrizeSlot);
    MarksOccurOnce(Templates[i], NumberSlot);
  }

  /** For arguments without `{` (a winning number never has one), the
      fallback message holds the prize name and the number literally and has
      no placeholder left. */
  lemma FallbackNamesBoth(prizeName: string, winningNumber: string, roll: Roll)
    requires NoBrace(prizeName) && NoBrace(winningNumber)
    ensures exists k :: OccursAt(FallbackMessage(prizeName, winningNumber, roll), prizeName, k)
    ensures exists k :: OccursAt(FallbackMessage(prizeName, winningNumber, roll), winningNumber, k)
    ensures forall k :: !OccursAt(FallbackMessage(prizeName, winningNumber, roll), PrizeMark, k)
    ensures forall k :: !OccursAt(FallbackMessage(prizeName, winningNumber, roll), NumberMark, k)
  {
    var t := Templates[TemplateIndex(roll)];
    TemplatesWellFormed(TemplateIndex(roll));
    FilledTemplate(t, prizeName, winningNumber);
    var m := FallbackMessage(prizeName, winningNumber, roll);
    assert OccursAt(m, prizeName, SlotStart(t, PrizeSlot) + (if t.first == PrizeSlot then 0 else |winningNumber| - 8));
    assert OccursAt(m, winningNumber, SlotStart(t, NumberSlot) + (if t.first == NumberSlot then 0 else |prizeName| - 7));
  }

  /** A filled template holds both values and, when neither value brings in
      a `{`, no placeholder. */
  lemma FilledTemplate(t: Template, prizeName: string, winningNumber: string)
    requires WellFormed(t) && NoBrace(prizeName) && NoBrace(winningNumber)
    ensures OccursAt(Fill(t, prizeName, winningNumber), prizeName, SlotStart(t, PrizeSlot) + (if t.first == PrizeSlot then 0 else |winningNumber| - 8))
    ensures OccursAt(Fill(t, prizeName, winningNumber), winningNumber, SlotStart(t, NumberSlot) + (if t.first == NumberSlot then 0 else |prizeName| - 7))
    ensures NoBrace(Fill(t, prizeName, winningNumber))
    ensures forall k :: !OccursAt(Fill(t, prizeName, winningNumber), PrizeMark, k)
    ensures forall k :: !OccursAt(Fill(t, prizeName, winningNumber), NumberMark, k)
  {
    var v1, v2 := SlotValue(t.first, prizeName, winningNumber), SlotValue(t.second, prizeName, winningNumber);
    var m := t.lead + v1 + t.middle + v2 + t.tail;
    assert m == Fill(t, prizeName, winningNumber);
    var a := |t.lead|;
    var b := a + |v1| + |t.middle|;
    assert m[a..a + |v1|] == v1;
    assert m[b..b + |v2|] == v2;
    assert NoBrace(m);
    NoBraceNoMark(m, PrizeMark);
    NoBraceNoMark(m, NumberMark);
  }

  /** Text without `{` holds no placeholder. */
  lemma NoBraceNoMark(m: string, pat: string)
    requires NoBrace(m) && |pat| > 0 && pat[0] == '{'
    ensures forall k :: !OccursAt(m, pat, k)
  {
  }
}

=== FILE: lottery.dfy ===
/** The lottery's data model (prizes, winners, the configuration) and the
    measures over prize lists and winner histories that the draw engine, the
    session ledger and the admin panel share. */
module Lottery {

  datatype Option<+T> = None | Some(value: T)

  datatype Result<+T, +E> = Ok(value: T) | Err(error: E)

  /** One value of `Math.random()`: a real number in [0, 1). Every random
      choice of the app is taken as such a value, supplied by the caller. */
  type Roll = r: real | 0.0 <= r < 1.0

  /** `Math.floor(Math.random() * n)`: a uniformly chosen index below `n`. */
  function ScaleRoll(roll: Roll, n: nat): (k: nat)
    requires n > 0
    ensures k < n
  {
    assert 0.0 <= roll * n as real < n as real by {
      assert (1.0 - roll) * n as real > 0.0;
    }
    (roll * n as real).Floor
  }

  /** A prize tier: `count` copies in all, `remaining` of them still to draw,
      `rank` 1 for the first prize, 2 for the second, and so on. */
  datatype Prize = Prize(id: string, name: string, count: int, remaining: int, rank: int)

  /** One drawn number, with a snapshot of the prize name it won. */
  datatype Winner = Winner(id: string, number: string, prizeName: string, timestamp: int, message: string)

  /** Where the congratulation text comes from. */
  datatype MessageMode = AI | PREDEFINED

  /** The configuration the app keeps between sessions. The optional fields
      are the ones a stored configuration may lack. */
  datatype LotteryConfig = LotteryConfig(
    maxNumber: nat,
    digitDelay: int,
    prizes: seq<Prize>,
    backgroundUrl: Option<string>,
    backgroundPrompt: Option<string>,
    messageMode: Option<MessageMode>)

  /** The stock invariant of one tier: 0 <= remaining <= count. */
  predicate InStock(p: Prize)
  {
    0 <= p.remaining <= p.count
  }

  predicate AllInStock(prizes: seq<Prize>)
  {
    forall i :: 0 <= i < |prizes| ==> InStock(prizes[i])
  }

  /** The weaker invariant that every configuration edit keeps. */
  predicate RemainingWithinCount(prizes: seq<Prize>)
  {
    forall i :: 0 <= i < |prizes| ==> prizes[i].remaining <= prizes[i].count
  }

  /** The sum of `remaining` over a prize list. */
  function TotalRemaining(prizes: seq<Prize>): int
  {
    if prizes == [] then 0 else prizes[0].remaining + TotalRemaining(prizes[1..])
  }

  /** How many tiers of the list carry the id. */
  function CountId(prizes: seq<Prize>, id: string): nat
  {
    if prizes == [] then 0
    else (if prizes[0].id == id then 1 else 0) + CountId(prizes[1..], id)
  }

  predicate UniqueIds(prizes: seq<Prize>)
  {
    forall i, j :: 0 <= i < j < |prizes| ==> prizes[i].id != prizes[j].id
  }

  /** `winners.some(w => w.number === s)`. */
  predicate NumberTaken(winners: seq<Winner>, s: string)
  {
    exists k :: 0 <= k < |winners| && winners[k].number == s
  }

  /** No number was won twice. */
  predicate DistinctNumbers(winners: seq<Winner>)
  {
    forall i, j :: 0 <= i < j < |winners| ==> winners[i].number != winners[j].number
  }

  /** With unique ids, a present id occurs exactly once. */
  lemma {:induction false} UniqueIdCount(prizes: seq<Prize>, k: nat)
    requires UniqueIds(prizes) && k < |prizes|
    ensures CountId(prizes, prizes[k].id) == 1
  {
    var id := prizes[k].id;
    if k == 0 {
      AbsentIdCount(prizes[1..], id);
    } else {
      UniqueIdCount(prizes[1..], k - 1);
      assert prizes[1..][k - 1] == prizes[k];
    }
  }

  /** An id that no tier carries counts zero times. */
  lemma {:induction false} AbsentIdCount(prizes: seq<Prize>, id: string)
    requires forall i :: 0 <= i < |prizes| ==> prizes[i].id != id
    ensures CountId(prizes, id) == 0
  {
    if prizes != [] {
      AbsentIdCount(prizes[1..], id);
    }
  }

  /** The stock of a concatenation is the sum of the stocks. */
  lemma {:induction false} TotalRemainingAppend(a: seq<Prize>, b: seq<Prize>)
    ensures TotalRemaining(a + b) == TotalRemaining(a) + TotalRemaining(b)
  {
    if a != [] {
      assert (a + b)[1..] == a[1..] + b;
      TotalRemainingAppend(a[1..], b);
    } else {
      assert a + b == b;
    }
  }
}
